=== FILE: README.md ===
# extreme_matmul: shape resolution and kernel dispatch of `matmul`

A Dafny model of the core of the `extreme_matmul` extension module. It covers:

- the shape rules of `matmul` for float32 tensors of rank 1 to 3, and the errors they raise;
- how `matmul_core` reduces the call to one M x K by K x N product with leading dimensions lda, ldb and ldc;
- the size rule that sends tiny products (M, N, K all at most `TINY` = 32) to a naive triple loop and everything else to BLAS;
- the naive kernel and the dot-product loop for two vectors (for contiguous vectors only; see "Left out").

Files (one module each):

- `shapes.dfy` (`MatmulShapes`): `Resolve` is the shape rules as a function. `ResolveShape` is the resolver as the source runs it, filling a three-slot output-shape array in loops, and is proved equal to `Resolve`. Lemmas state each rank-pair case.
- `plan.dfy` (`MatmulPlan`): `DerivePlan` computes M, N, K, lda, ldb and ldc. `SelectKernel` is the `TINY` rule.
- `kernel.dfy` (`MatmulKernels`): `SimpleMatmul` is the naive kernel, writing a flat output buffer in place through strides. `DotProduct` is the rank-0 loop. `Entry`, `Dot` and `ProductEntry` are the sums they are proved against.
- `matmul.dfy` (`Matmul`): `MatmulCore` and `Matmul`, the `matmul` entry point without its host-library glue, plus lemmas on when a call is well defined.

The source sometimes indexes outside a shape array or a data buffer. The model gives that case a distinct outcome rather than a meaning:

- `Resolution.ShapeReadOutOfRange`: a vector times a rank-3 tensor reads `a_shape[-1]`.
- `Planning.PlanReadOutOfRange`: vector-matrix and matrix-vector reach `matmul_core` with a rank-1 output and read `out_shape[-1]`; a rank-1 `b` has no `b_shape[2]`.
- `MatmulOutcome.UndefinedBehaviour`: an element the kernel reads or writes lies outside an operand's or the output's buffer. The naive kernel always touches the buffers. BLAS touches them only when its argument check accepts the leading dimensions: each must be at least 1 and at least the row width it strides over (lda ≥ K, ldb ≥ N, ldc ≥ N). A rejected call touches nothing.

For rank-2 and rank-3 operands the last case happens exactly when three things hold: the output stack is empty, the single product the source still runs has at least one row and one column, and the kernel chosen for it touches the buffers (the naive kernel, or BLAS with K > 0). For example, (0,3,4) x (0,4,5) resolves to (0,3,5), yet the naive kernel still computes one 3 x 5 product over empty buffers. An empty stack whose product has no rows or no columns, such as (0,3,4) x (0,4,0), touches no element and returns its empty output. So does (0,40,0) x (0,0,5): it goes to BLAS with lda = K = 0, which the argument check rejects.

The source computes a single product. For rank-3 operands that is the product of the first matrices of the stacks, written to the first M x N cells of the output; the other cells are left as allocated. Elements are modelled as integers.

Where the code departs from the intended design, the model follows the code:

- Vector-matrix and matrix-vector are meant to be supported, and the resolver gives them the expected shape. The multiply then reads outside the output's shape array, so the model reports undefined behaviour for them.
- The size threshold `TINY` could be a tunable setting, but the code fixes it at compile time. The model keeps it a constant.

## Model

| member | source | states |
|---|---|---|
| MatmulShapes.MessagesDistinct | extreme_matmul.c:82-134 | the `ValueError` texts of the three resolver errors ("1D to 3D arrays only", "size mismatch", "batch size mismatch", given by `Message`) are pairwise different, so the text identifies the error |
| MatmulShapes.Resolve | extreme_matmul.c:79-148 | an output shape is produced only for ranks 1..3, has rank at most 3, and in the general branch has the larger of the two ranks; only a rank error can come from unsupported ranks |
| MatmulShapes.ResolveShape | extreme_matmul.c:79-148 | the resolver as written (rank guard, three vector branches, general branch filling the output-shape array in loops) returns exactly `Resolve`'s outcome |
| MatmulShapes.RankGuard | extreme_matmul.c:82-85 | "1D to 3D arrays only" is raised exactly when a rank is below 1 or above 3 |
| MatmulShapes.VectorDotCase | extreme_matmul.c:93-99 | vector times vector succeeds with a rank-0 shape iff a[0] == b[0], otherwise "size mismatch" |
| MatmulShapes.VectorMatrixCase | extreme_matmul.c:100-107 | vector times matrix gives shape (b[1]) iff a[0] == b[0], otherwise "size mismatch" |
| MatmulShapes.MatrixVectorCase | extreme_matmul.c:108-115 | matrix times vector gives shape (a[0]) iff a[1] == b[0], otherwise "size mismatch" |
| MatmulShapes.StackedInnerCheck | extreme_matmul.c:116-123 | in the general branch "size mismatch" is raised iff a's last axis differs from b[0] (vector b) or b's second-to-last axis, whatever the batch axes hold |
| MatmulShapes.StackedBatchCheck | extreme_matmul.c:126-134 | with equal ranks and matching inner dimensions, "batch size mismatch" is raised iff some leading axis differs |
| MatmulShapes.BatchErrorNeedsEqualRanks | extreme_matmul.c:125-144 | "batch size mismatch" arises only for two rank-3 operands whose axis 0 differs |
| MatmulShapes.UndefinedShapeRead | extreme_matmul.c:116-147 | the only out-of-range shape read in the resolver is vector times rank-3 with matching inner dimensions (a_shape[-1] at line 146) |
| MatmulShapes.StackedResult | extreme_matmul.c:125-147 | a general-branch success has rank max(ndim_a, ndim_b), leading axes from the higher-rank operand (equal to both when ranks match), trailing axes (a[-2], 1 or b[-1]) |
| MatmulShapes.ResolvedRank | extreme_matmul.c:91-147 | a resolved shape has rank at most 3, and rank 0 exactly for two vectors |
| MatmulShapes.ResolveVectorExamples | extreme_matmul.c:82-115 | (3)·(3) → (), (3)·(3,4) → (4), (3)·(5,4) size mismatch, a rank-4 operand rejected |
| MatmulShapes.ResolveStackedExamples | extreme_matmul.c:116-147 | (2,3)·(3,4) → (2,4), (2,3,4)·(2,4,5) → (2,3,5), (3,4)·(2,4,5) → (2,3,5), (2,3,4)·(3,4,5) batch size mismatch, (2,3,4)·(4) → (2,3,1) |
| MatmulPlan.DerivePlan | extreme_matmul.c:45-52 | the plan is defined iff the output has rank ≥ 2 and both operands rank ≥ 2; M, N are the output's trailing axes, ldc == N, K is a's last axis |
| MatmulPlan.StackedPlan | extreme_matmul.c:46-52 | for resolved operands of rank 2 or 3, K equals both a's last and b's second-to-last axis, and the asymmetric rule gives lda == K, ldb == N, ldc == N |
| MatmulPlan.PlanDefinedIffNoVector | extreme_matmul.c:46-51 | with an output of rank ≥ 1, the plan is defined exactly when neither operand is a vector (otherwise out_shape[-1] or b_shape[2] is read) |
| MatmulPlan.SelectKernel | extreme_matmul.c:55-60 | the naive kernel is chosen iff max(M, N, K) ≤ TINY (32), BLAS otherwise (`Max3` is proved to be the largest of the three) |
| MatmulPlan.StackedBlasArguments | extreme_matmul.c:49-59 | for resolved operands of rank 2 or 3 the derived leading dimensions pass BLAS's argument check iff K > 0 and N > 0 |
| MatmulPlan.SelectKernelMonotone | extreme_matmul.c:55-60 | shrinking M, N or K never moves a product from the naive kernel to BLAS |
| MatmulPlan.SelectKernelBoundary | extreme_matmul.c:10-59 | 32 x 32 x 32 runs naive; any one dimension of 33 goes to BLAS |
| MatmulKernels.SimpleMatmul | extreme_matmul.c:13-28 | for all i < m, j < n, c[i*ldc+j] is the sum over p < k of a[i*lda+p]*b[p*ldb+j]; with ldc ≥ n no other cell of c changes; a must hold the operand only when n > 0 and b only when m > 0, since otherwise the loops read neither |
| MatmulKernels.DotProduct | extreme_matmul.c:167-171 | the loop's sum is the sum over i < a_shape[0] of a[i]*b[i] |
| MatmulKernels.DotIsEntry | extreme_matmul.c:162-171 | the dot-product path computes the naive kernel's single entry for a 1 x n row times an n x 1 column |
| MatmulKernels.EntryIsProduct | extreme_matmul.c:18-25 | with lda == K and ldb == N over row-major operands, the kernel's entry (i, j) is the textbook product entry Σ x[i][p]·y[p][j] |
| Matmul.MatmulCore | extreme_matmul.c:30-63 | given buffers that hold every element the chosen kernel touches (an operand only when M > 0 and N > 0, nothing for a BLAS call whose leading dimensions fail the argument check), the kernel is the one the TINY rule picks; on the naive path C[i*N+j] holds the product entry for all i < M, j < N and every cell from M*N on is untouched; a rejected BLAS call leaves C unchanged |
| Matmul.Matmul | extreme_matmul.c:79-190 | errors are raised exactly when resolution rejects, with its error, and the message is "1D to 3D arrays only" exactly for unsupported ranks; undefined behaviour exactly when a shape read is out of range, or the chosen kernel touches the buffers and an element it touches is out of range; a returned output has the resolved shape and size, holds the dot product on the rank-0 path and the product entries on the naive path |
| Matmul.StackedUndefinedIff | extreme_matmul.c:18-59 | for resolved operands of rank 2 or 3, undefined behaviour happens iff the output stack is empty, the product has M > 0 and N > 0, and K > 0 or the naive kernel is chosen |
| Matmul.RejectedBlasCallIsDefined | extreme_matmul.c:46-59 | (0,40,0)·(0,0,5) resolves to (0,40,5), goes to BLAS with plan (40,5,0,0,5,5) whose lda = 0 fails the argument check, and is not undefined behaviour |
| Matmul.EmptyProductIsDefined | extreme_matmul.c:18-59 | (0,3,4)·(0,4,0) → (0,3,0) and (0,4)·(0,4,5) → (0,0,5) are well defined: their loops touch no element |
| Matmul.StackedCallIsDefined | extreme_matmul.c:46-59 | operands of rank 2 or 3 with a non-empty stack never index outside their buffers |
| Matmul.VectorOperandIsUndefined | extreme_matmul.c:46-51 | a call with one vector operand and a non-scalar output reaches undefined behaviour unless resolution rejects it |
| Matmul.EmptyStackIsUndefined | extreme_matmul.c:46-59 | (0,3,4) x (0,4,5) resolves to (0,3,5), picks the naive kernel for a 3 x 5 x 4 product and reads outside the empty operand buffer |
| Matmul.NaivePlanIsMatrixProduct | extreme_matmul.c:46-56 | for two matrices, the naive kernel with the derived strides computes the textbook product of the row-major operands |
| MatmulKernels.OnesEntry | extreme_matmul.c:18-25 | a product entry whose `t` factors are all ones sums to `t` |
| Matmul.DotExample | extreme_matmul.c:162-171 | (1, 2, 3) · (4, 5, 6) sums to 32 |
| Matmul.OnesProductExample | extreme_matmul.c:13-56 | shapes (2, 3) and (3, 4) resolve to (2, 4) with plan M=2, N=4, K=3, lda=3, ldb=4, ldc=4, and the naive kernel's entries of ones times ones are all 3 |

## Left out

- Python/NumPy glue: argument parsing ("need two arrays"), the float32 dtype check ("float32 only"), output allocation and its "array creation failed" error, the contiguous conversion and its "contiguous array failed" error, reference counting and module registration (extreme_matmul.c:65-77, 151-159, 176-200, 203-219). They are host-library calls; the model takes the operands as contiguous buffers already sized by their shapes. The conversion only runs on the matrix paths (extreme_matmul.c:176-180); the dot-product path returns before it.
- Matmul.Matmul: the rank-0 result is `Dot` of the buffers only for contiguous, native-order vectors. That path reads the operands' raw data pointers before the contiguous conversion (extreme_matmul.c:161-171 against 176-180), so it ignores strides: for a column slice it sums the elements that follow the first one in memory, and for a reversed view it reads outside the buffer. The model does not represent strided views.
- The numerical result of `cblas_sgemm`. It is a vendor library call; the model records only that the BLAS branch is taken and promises nothing about the output buffer on that branch.
- Matmul.MatmulCore: on the BLAS branch it states nothing about C when the arguments pass the check, because `cblas_sgemm` is not modelled. For a rejected call the model follows BLAS libraries whose error handler reports and returns; a handler that ends the process is not modelled.
- That both kernels agree numerically around the threshold. It does not hold when K or N is 0 on the BLAS branch, e.g. (33,0)·(0,2). There lda = K = 0 (or ldb = ldc = N = 0), below the minimum of 1 that the BLAS interface demands for a leading dimension, so `cblas_sgemm` rejects its arguments and C keeps the values it was allocated with, where the naive kernel would write zeros. For other sizes agreement is a property of BLAS, which is outside the model.
- Float32 rounding and accumulation order. Elements are unbounded integers.
- Truncation of `npy_intp` shape entries to `int` in `matmul_core` (extreme_matmul.c:45-51) and of the inner dimensions `inner_a`, `inner_b` in the resolver (extreme_matmul.c:117-118). Dimensions are assumed to fit.
- The unused `SMALL` constant.
- Iteration over batch axes. The source has none, and the model does not add it.
- benchmark.py (timing and printing) and setup.py (build configuration) are not part of this model.

=== FILE: kernel.dfy ===
/** The two compute loops of `matmul`: the naive kernel used for tiny
    operands and the dot product of two vectors.  Buffers are flat and
    row-major; element (r, s) of a matrix stored with leading dimension `ld`
    lives at offset `r * ld + s`.  Elements are integers: the source's
    float32 rounding is not modelled. */
module MatmulKernels {

  /** Offset of element (r, s) in a row-major buffer with leading dimension `ld`. */
  function Cell(r: nat, s: nat, ld: nat): nat
  {
    r * ld + s
  }

  /** A buffer of length `len` holds every element of a `rows` x `cols`
      matrix stored with leading dimension `ld`. */
  predicate Covers(len: nat, rows: nat, cols: nat, ld: nat)
  {
    forall r, s :: 0 <= r < rows && 0 <= s < cols ==> Cell(r, s, ld) < len
  }

  /** Offset `q` is one of the cells of a `rows` x `cols` matrix stored with
      leading dimension `ld`. */
  ghost predicate IsMatrixCell(q: int, rows: nat, cols: nat, ld: nat)
  {
    exists r, s :: 0 <= r < rows && 0 <= s < cols && q == Cell(r, s, ld)
  }

  /** Offset `q` is one of the first `cols` cells of row `r`. */
  ghost predicate IsRowPrefixCell(q: int, r: nat, cols: nat, ld: nat)
  {
    exists s :: 0 <= s < cols && q == Cell(r, s, ld)
  }

  /** Every operand read that entry (i, j) of a product with inner dimension
      `k` makes is inside its buffer. */
  predicate EntryInBounds(lenA: nat, lda: nat, lenB: nat, ldb: nat, i: nat, j: nat, k: nat)
  {
    forall p :: 0 <= p < k ==> Cell(i, p, lda) < lenA && Cell(p, j, ldb) < lenB
  }

  /** Entry (i, j) of the product of strided operands:
      the sum over p < k of a[i*lda + p] * b[p*ldb + j]. */
  function Entry(a: seq<int>, lda: nat, b: seq<int>, ldb: nat, i: nat, j: nat, k: nat): int
    requires EntryInBounds(|a|, lda, |b|, ldb, i, j, k)
    decreases k
  {
    if k == 0 then 0
    else Entry(a, lda, b, ldb, i, j, k - 1) + a[Cell(i, k - 1, lda)] * b[Cell(k - 1, j, ldb)]
  }

  /** The sum over i < n of a[i] * b[i]. */
  function Dot(a: seq<int>, b: seq<int>, n: nat): int
    requires n <= |a| && n <= |b|
    decreases n
  {
    if n == 0 then 0 else Dot(a, b, n - 1) + a[n - 1] * b[n - 1]
  }

  /** Multiplying by a natural number keeps the order. */
  lemma {:induction false} MulMonotone(x: nat, y: nat, c: nat)
    requires x <= y
    ensures x * c <= y * c
  {
    if x < y {
      MulMonotone(x, y - 1, c);
      assert (y - 1) * c + c == y * c;
    }
  }

  /** Cells of different rows are ordered by row when rows are no wider
      than the leading dimension. */
  lemma CellRowOrder(r1: nat, s1: nat, r2: nat, s2: nat, ld: nat)
    requires r1 < r2 && s1 < ld
    ensures Cell(r1, s1, ld) < Cell(r2, s2, ld)
  {
    MulMonotone(r1 + 1, r2, ld);
    assert (r1 + 1) * ld == r1 * ld + ld;
  }

  /** Cell (r, s) of a `rows` x `cols` matrix stored with leading dimension
      `cols` lies below `rows * cols`. */
  lemma TightCellBound(r: nat, s: nat, rows: nat, cols: nat)
    requires r < rows && s < cols
    ensures Cell(r, s, cols) < rows * cols
  {
    CellRowOrder(r, s, rows, 0, cols);
  }

  /** A buffer of at least `rows * cols` elements covers a tightly packed
      `rows` x `cols` matrix. */
  lemma TightCovers(len: nat, rows: nat, cols: nat)
    requires rows * cols <= len
    ensures Covers(len, rows, cols, cols)
  {
    forall r, s | 0 <= r < rows && 0 <= s < cols
      ensures Cell(r, s, cols) < len
    {
      TightCellBound(r, s, rows, cols);
    }
  }

  /** The cells of a tightly packed `rows` x `cols` matrix are exactly the
      offsets below `rows * cols`. */
  lemma TightMatrixCells(q: int, rows: nat, cols: nat)
    ensures IsMatrixCell(q, rows, cols, cols) <==> 0 <= q < rows * cols
  {
    if IsMatrixCell(q, rows, cols, cols) {
      var r, s :| 0 <= r < rows && 0 <= s < cols && q == Cell(r, s, cols);
      TightCellBound(r, s, rows, cols);
    }
    if 0 <= q < rows * cols {
      var r, s := q / cols, q % cols;
      assert q == Cell(r, s, cols);
      if r >= rows {
        MulMonotone(rows, r, cols);
      }
      assert 0 <= r < rows && 0 <= s < cols;
    }
  }

  /** The naive kernel: for every i < m and j < n it writes entry (i, j) of
      the product to c[i*ldc + j], accumulating over p in increasing order.
      With rows of `c` no wider than `ldc`, no other cell of `c` changes.
      `a` is read only when some column is computed (n > 0) and `b` only
      when some row is (m > 0), so only then must they hold the operand. */
  method SimpleMatmul(m: nat, n: nat, k: nat,
                      a: array<int>, lda: nat,
                      b: array<int>, ldb: nat,
                      c: array<int>, ldc: nat)
    requires c != a && c != b
    requires n <= ldc
    requires n > 0 ==> Covers(a.Length, m, k, lda)
    requires m > 0 ==> Covers(b.Length, k, n, ldb)
    requires Covers(c.Length, m, n, ldc)
    modifies c
    ensures forall i, j :: 0 <= i < m && 0 <= j < n ==>
              c[Cell(i, j, ldc)] == Entry(a[..], lda, b[..], ldb, i, j, k)
    ensures forall q :: 0 <= q < c.Length && !IsMatrixCell(q, m, n, ldc) ==> c[q] == old(c[q])
  {
    for i := 0 to m
      invariant forall r, s :: 0 <= r < i && 0 <= s < n ==>
                  c[Cell(r, s, ldc)] == Entry(a[..], lda, b[..], ldb, r, s, k)
      invariant forall q :: 0 <= q < c.Length && !IsMatrixCell(q, i, n, ldc) ==> c[q] == old(c[q])
    {
      for j := 0 to n
        invariant forall r, s :: 0 <= r < i && 0 <= s < n ==>
                    c[Cell(r, s, ldc)] == Entry(a[..], lda, b[..], ldb, r, s, k)
        invariant forall s :: 0 <= s < j ==>
                    c[Cell(i, s, ldc)] == Entry(a[..], lda, b[..], ldb, i, s, k)
        invariant forall q :: 0 <= q < c.Length && !IsMatrixCell(q, i, n, ldc) && !IsRowPrefixCell(q, i, j, ldc) ==>
                    c[q] == old(c[q])
      {
        var sum := 0;
        for p := 0 to k
          invariant sum == Entry(a[..], lda, b[..], ldb, i, j, p)
        {
          sum := sum + a[Cell(i, p, lda)] * b[Cell(p, j, ldb)];
        }
        forall r, s | 0 <= r < i && 0 <= s < n
          ensures Cell(r, s, ldc) < Cell(i, j, ldc)
        {
          CellRowOrder(r, s, i, j, ldc);
        }
        c[Cell(i, j, ldc)] := sum;
      }
    }
  }

  /** The rank-0 path: the running sum of a[i] * b[i] over i < n. */
  method DotProduct(n: nat, a: array<int>, b: array<int>) returns (sum: int)
    requires n <= a.Length && n <= b.Length
    ensures sum == Dot(a[..], b[..], n)
  {
    sum := 0;
    for i := 0 to n
      invariant sum == Dot(a[..], b[..], i)
    {
      sum := sum + a[i] * b[i];
    }
  }

  /** The dot product is the naive kernel's single entry for a 1 x n row
      times an n x 1 column. */
  lemma {:induction false} DotIsEntry(a: seq<int>, b: seq<int>, n: nat, lda: nat)
    requires n <= |a| && n <= |b|
    ensures EntryInBounds(|a|, lda, |b|, 1, 0, 0, n)
    ensures Dot(a, b, n) == Entry(a, lda, b, 1, 0, 0, n)
  {
    if n > 0 {
      DotIsEntry(a, b, n - 1, lda);
    }
  }

  /** A matrix as a sequence of rows, every row `cols` wide. */
  predicate IsMatrix(x: seq<seq<int>>, rows: nat, cols: nat)
  {
    |x| == rows && forall r :: 0 <= r < rows ==> |x[r]| == cols
  }

  /** Row-major layout: the rows one after another. */
  function Flatten(x: seq<seq<int>>): seq<int>
  {
    if x == [] then [] else x[0] + Flatten(x[1..])
  }

  /** The textbook product entry: the sum over p < k of x[i][p] * y[p][j]. */
  function ProductEntry(x: seq<seq<int>>, y: seq<seq<int>>, i: nat, j: nat, k: nat): int
    requires i < |x| && k <= |x[i]| && k <= |y|
    requires forall p :: 0 <= p < k ==> j < |y[p]|
    decreases k
  {
    if k == 0 then 0 else ProductEntry(x, y, i, j, k - 1) + x[i][k - 1] * y[k - 1][j]
  }

  /** Summing `t` products of ones gives `t`. */
  lemma {:induction false} OnesEntry(x: seq<seq<int>>, y: seq<seq<int>>, i: nat, j: nat, t: nat)
    requires i < |x| && t <= |x[i]| && t <= |y|
    requires forall p :: 0 <= p < t ==> j < |y[p]| && x[i][p] == 1 && y[p][j] == 1
    ensures ProductEntry(x, y, i, j, t) == t
  {
    if t > 0 {
      OnesEntry(x, y, i, j, t - 1);
    }
  }

  /** In the row-major layout, element (r, s) is at `Cell(r, s, cols)`. */
  lemma {:induction false} FlattenAt(x: seq<seq<int>>, rows: nat, cols: nat, r: nat, s: nat)
    requires IsMatrix(x, rows, cols) && r < rows && s < cols
    ensures |Flatten(x)| == rows * cols
    ensures Cell(r, s, cols) < |Flatten(x)| && Flatten(x)[Cell(r, s, cols)] == x[r][s]
  {
    FlattenLength(x, rows, cols);
    if r == 0 {
      assert Cell(r, s, cols) == s;
    } else {
      FlattenAt(x[1..], rows - 1, cols, r - 1, s);
      assert Cell(r, s, cols) == cols + Cell(r - 1, s, cols);
    }
  }

  lemma {:induction false} FlattenLength(x: seq<seq<int>>, rows: nat, cols: nat)
    requires IsMatrix(x, rows, cols)
    ensures |Flatten(x)| == rows * cols
  {
    if rows > 0 {
      FlattenLength(x[1..], rows - 1, cols);
    }
  }

  /** With tight leading dimensions (lda == k, ldb == n), the naive kernel's
      entry (i, j) over row-major operands is the textbook product entry. */
  lemma {:induction false} EntryIsProduct(x: seq<seq<int>>, y: seq<seq<int>>, m: nat, k: nat, n: nat,
                                          i: nat, j: nat, t: nat)
    requires IsMatrix(x, m, k) && IsMatrix(y, k, n)
    requires i < m && j < n && t <= k
    ensures EntryInBounds(|Flatten(x)|, k, |Flatten(y)|, n, i, j, t)
    ensures Entry(Flatten(x), k, Flatten(y), n, i, j, t) == ProductEntry(x, y, i, j, t)
  {
    forall p | 0 <= p < t
      ensures Cell(i, p, k) < |Flatten(x)| && Cell(p, j, n) < |Flatten(y)|
    {
      FlattenAt(x, m, k, i, p);
      FlattenAt(y, k, n, p, j);
    }
    if t > 0 {
      EntryIsProduct(x, y, m, k, n, i, j, t - 1);
      FlattenAt(x, m, k, i, t - 1);
      FlattenAt(y, k, n, t - 1, j);
    }
  }
}

=== FILE: matmul.dfy ===
/** The `matmul` entry point and `matmul_core`: resolve the output shape,
    allocate the output, then either take the dot-product path (rank-0
    output) or derive one two-dimensional product and run it on the naive
    kernel or hand it to BLAS.

    The source performs one product only; for stacked (rank-3) operands
    that is the product of the first matrices of the stacks, written to the
    first M x N cells of the output.  Where the source would read or write
    outside a shape array or a data buffer the model returns
    `UndefinedBehaviour` instead of inventing a result. */
module Matmul {
  import opened MatmulShapes
  import opened MatmulPlan
  import opened MatmulKernels

  /** Which code path produced the returned output. */
  datatype Path = DotPath | NaivePath | BlasPath

  datatype MatmulOutcome =
    | Raised(error: MatmulError)
    | Returned(shape: Shape, path: Path)
    | UndefinedBehaviour

  /** The buffers hold every cell the plan's product reads or writes: an
      operand is read only when the product has both rows and columns. */
  predicate PlanFits(p: Plan, lenA: nat, lenB: nat, lenC: nat)
  {
    && (p.n > 0 ==> Covers(lenA, p.m, p.k, p.lda))
    && (p.m > 0 ==> Covers(lenB, p.k, p.n, p.ldb))
    && Covers(lenC, p.m, p.n, p.ldc)
  }

  /** `c` holds, at C[i*ldc + j] for every i < M and j < N, entry (i, j) of
      the plan's product of `a` and `b`. */
  ghost predicate HoldsProduct(c: seq<int>, a: seq<int>, b: seq<int>, p: Plan)
    requires PlanFits(p, |a|, |b|, |c|)
  {
    forall i, j :: 0 <= i < p.m && 0 <= j < p.n ==>
      c[Cell(i, j, p.ldc)] == Entry(a, p.lda, b, p.ldb, i, j, p.k)
  }

  /** The call reaches undefined behaviour: a shape read at a missing axis,
      or a kernel that touches the buffers with strided accesses that leave
      the contiguous buffers of the operands' and output's shapes. */
  predicate HasUndefinedBehaviour(a: Shape, b: Shape)
  {
    match Resolve(a, b)
    case ShapeReadOutOfRange => true
    case Rejected(_) => false
    case Resolved(out) =>
      && out != []
      && (|| DerivePlan(a, b, out).PlanReadOutOfRange?
          || (&& TouchesBuffers(DerivePlan(a, b, out).plan)
              && !PlanFits(DerivePlan(a, b, out).plan, Volume(a), Volume(b), Volume(out))))
  }

  /** `matmul_core`: derive the plan and run the kernel the size rule picks.
      The naive kernel writes entry (i, j) of the product of the first
      matrices of the operands to C[i*N + j] and leaves every cell from
      M * N on as it was.  A BLAS call whose leading dimensions fail the
      argument check changes nothing; the BLAS result itself is not
      modelled. */
  method MatmulCore(aShape: Shape, bShape: Shape, outShape: Shape,
                    A: array<int>, B: array<int>, C: array<int>) returns (kernel: Kernel)
    requires DerivePlan(aShape, bShape, outShape).Planned?
    requires C != A && C != B
    requires TouchesBuffers(DerivePlan(aShape, bShape, outShape).plan) ==>
               PlanFits(DerivePlan(aShape, bShape, outShape).plan, A.Length, B.Length, C.Length)
    modifies C
    ensures kernel == SelectKernel(DerivePlan(aShape, bShape, outShape).plan)
    ensures kernel == Blas && !BlasAcceptsArguments(DerivePlan(aShape, bShape, outShape).plan) ==>
              C[..] == old(C[..])
    ensures kernel == Naive ==>
              HoldsProduct(C[..], A[..], B[..], DerivePlan(aShape, bShape, outShape).plan)
    ensures kernel == Naive ==>
              var p := DerivePlan(aShape, bShape, outShape).plan;
              forall q :: p.m * p.n <= q < C.Length ==> C[q] == old(C[q])
  {
    var p := DerivePlan(aShape, bShape, outShape).plan;
    kernel := SelectKernel(p);
    if kernel == Naive {
      SimpleMatmul(p.m, p.n, p.k, A, p.lda, B, p.ldb, C, p.ldc);
      forall q | p.m * p.n <= q < C.Length
        ensures C[q] == old(C[q])
      {
        TightMatrixCells(q, p.m, p.n);
      }
    }
    // otherwise the product is delegated to cblas_sgemm, which is not modelled
  }

  /** `matmul` on two contiguous operands whose buffers hold exactly the
      elements of their shapes.  A rejected call raises the `ValueError`
      whose text names the failed check.  The dot-product path reads the
      operands' buffers as they are, before any contiguous conversion, so
      its result is the dot product only for contiguous vectors. */
  method Matmul(aShape: Shape, A: array<int>, bShape: Shape, B: array<int>)
    returns (outcome: MatmulOutcome, C: array<int>)
    requires A.Length == Volume(aShape) && B.Length == Volume(bShape)
    ensures fresh(C)
    ensures outcome.Raised? <==> Resolve(aShape, bShape).Rejected?
    ensures outcome.Raised? ==> outcome.error == Resolve(aShape, bShape).error
    ensures outcome.Raised? ==>
              (Message(outcome.error) == "1D to 3D arrays only" <==> !RanksSupported(aShape, bShape))
    ensures outcome == UndefinedBehaviour <==> HasUndefinedBehaviour(aShape, bShape)
    ensures outcome.Returned? ==>
              && Resolve(aShape, bShape) == Resolved(outcome.shape)
              && C.Length == Volume(outcome.shape)
              && (outcome.path == DotPath <==> outcome.shape == [])
    ensures outcome.Returned? && outcome.path == DotPath ==>
              && |aShape| == 1 && aShape[0] == A.Length == B.Length
              && C[0] == Dot(A[..], B[..], aShape[0])
    ensures outcome.Returned? && outcome.path != DotPath ==>
              && DerivePlan(aShape, bShape, outcome.shape).Planned?
              && var p := DerivePlan(aShape, bShape, outcome.shape).plan;
              && (outcome.path == NaivePath <==> SelectKernel(p) == Naive)
              && (outcome.path == NaivePath ==> HoldsProduct(C[..], A[..], B[..], p))
  {
    var r := ResolveShape(aShape, bShape);
    match r
    case Rejected(e) =>
      RankGuard(aShape, bShape);
      outcome, C := Raised(e), new int[0];
    case ShapeReadOutOfRange =>
      outcome, C := UndefinedBehaviour, new int[0];
    case Resolved(out) =>
      C := new int[Volume(out)];
      if out == [] {
        var sum := DotProduct(aShape[0], A, B);
        C[0] := sum;
        outcome := Returned(out, DotPath);
      } else {
        var planning := DerivePlan(aShape, bShape, out);
        if || planning.PlanReadOutOfRange?
           || (TouchesBuffers(planning.plan) && !PlanFits(planning.plan, A.Length, B.Length, C.Length)) {
          outcome := UndefinedBehaviour;
        } else {
          var kernel := MatmulCore(aShape, bShape, out, A, B, C);
          outcome := Returned(out, if kernel == Naive then NaivePath else BlasPath);
        }
      }
  }

  lemma MatrixVolume(rows: nat, cols: nat)
    ensures Volume([rows, cols]) == rows * cols
  {
    assert [rows, cols][1..] == [cols];
    assert [cols][1..] == [];
    assert Volume([cols]) == cols;
  }

  /** A product of at least `rows * cols` elements covers a tightly packed
      matrix, and a stack of one or more such matrices holds its first. */
  lemma StackCovers(s: Shape, rows: nat, cols: nat)
    requires |s| == 2 || (|s| == 3 && s[0] >= 1)
    requires s[|s| - 2] == rows && s[|s| - 1] == cols
    ensures Covers(Volume(s), rows, cols, cols)
  {
    assert s[|s| - 2..] == [rows, cols];
    MatrixVolume(rows, cols);
    if |s| == 3 {
      assert s[1..] == s[|s| - 2..];
      MulMonotone(1, s[0], rows * cols);
    }
    TightCovers(Volume(s), rows, cols);
  }

  /** Operands of rank 2 or 3 whose stacks are not empty never reach
      undefined behaviour: the plan is defined and the first matrices of
      the stacks fit in the contiguous buffers. */
  lemma StackedCallIsDefined(a: Shape, b: Shape)
    requires 2 <= |a| <= 3 && 2 <= |b| <= 3
    requires Resolve(a, b).Resolved?
    requires |Resolve(a, b).shape| == 2 || Resolve(a, b).shape[0] >= 1
    ensures !HasUndefinedBehaviour(a, b)
  {
    var out := Resolve(a, b).shape;
    StackedPlan(a, b, out);
    StackedResult(a, b);
    var p := DerivePlan(a, b, out).plan;
    assert |a| == 3 ==> a[0] == out[0];
    assert |b| == 3 ==> b[0] == out[0];
    StackCovers(a, p.m, p.k);
    StackCovers(b, p.k, p.n);
    StackCovers(out, p.m, p.n);
  }

  /** For operands of rank 2 or 3 that resolve, the call is undefined
      exactly when the output stack is empty while the single product it
      still runs has at least one row and one column, and the kernel that
      runs it writes: the naive kernel, or BLAS with K > 0 (with K == 0 the
      leading dimension lda is 0 and BLAS rejects the call). */
  lemma StackedUndefinedIff(a: Shape, b: Shape)
    requires 2 <= |a| <= 3 && 2 <= |b| <= 3
    requires Resolve(a, b).Resolved?
    ensures var out := Resolve(a, b).shape;
      HasUndefinedBehaviour(a, b) <==>
        && |out| == 3 && out[0] == 0 && out[1] > 0 && out[2] > 0
        && (a[|a| - 1] > 0 || SelectKernel(DerivePlan(a, b, out).plan) == Naive)
  {
    var out := Resolve(a, b).shape;
    StackedPlan(a, b, out);
    StackedBlasArguments(a, b, out);
    if |out| == 2 || out[0] > 0 {
      StackedCallIsDefined(a, b);
    } else {
      var p := DerivePlan(a, b, out).plan;
      assert Volume(out) == 0;
      if out[1] > 0 && out[2] > 0 {
        assert Cell(0, 0, p.ldc) == 0;
      }
    }
  }

  /** Empty stacks whose product has no columns, or no rows, touch no
      operand element: (0, 3, 4) x (0, 4, 0) and (0, 4) x (0, 4, 5) return
      their empty outputs on the naive path. */
  lemma EmptyProductIsDefined()
    ensures Resolve([0, 3, 4], [0, 4, 0]) == Resolved([0, 3, 0])
    ensures !HasUndefinedBehaviour([0, 3, 4], [0, 4, 0])
    ensures Resolve([0, 4], [0, 4, 5]) == Resolved([0, 0, 5])
    ensures !HasUndefinedBehaviour([0, 4], [0, 4, 5])
  {
    var a1, b1: Shape := [0, 3, 4], [0, 4, 0];
    assert Resolve(a1, b1) == Resolved([0, 3, 0]) by {
      assert BatchAxesAgree(a1, b1);
      assert LeadingAxes(a1, b1) == [0];
    }
    StackedUndefinedIff(a1, b1);
    var a2, b2: Shape := [0, 4], [0, 4, 5];
    assert Resolve(a2, b2) == Resolved([0, 0, 5]) by {
      assert LeadingAxes(a2, b2) == [0];
    }
    StackedUndefinedIff(a2, b2);
  }

  /** A rejected BLAS call touches nothing: (0, 40, 0) x (0, 0, 5) resolves
      to (0, 40, 5) and goes to BLAS with K == 0 and lda == 0, which fails
      the argument check, so the empty output is returned. */
  lemma RejectedBlasCallIsDefined()
    ensures Resolve([0, 40, 0], [0, 0, 5]) == Resolved([0, 40, 5])
    ensures DerivePlan([0, 40, 0], [0, 0, 5], [0, 40, 5]) == Planned(Plan(40, 5, 0, 0, 5, 5))
    ensures SelectKernel(Plan(40, 5, 0, 0, 5, 5)) == Blas
    ensures !BlasAcceptsArguments(Plan(40, 5, 0, 0, 5, 5))
    ensures !HasUndefinedBehaviour([0, 40, 0], [0, 0, 5])
  {
    var a, b: Shape := [0, 40, 0], [0, 0, 5];
    assert Resolve(a, b) == Resolved([0, 40, 5]) by {
      assert BatchAxesAgree(a, b);
      assert LeadingAxes(a, b) == [0];
    }
    StackedUndefinedIff(a, b);
  }

  /** An operand of rank 1 whose output is not a scalar always ends in
      undefined behaviour (a rank-1 output read at index -1, a missing axis
      2 of `b`, or `a[-1]` for a vector times a rank-3 tensor). */
  lemma VectorOperandIsUndefined(a: Shape, b: Shape)
    requires RanksSupported(a, b) && (|a| == 1 || |b| == 1)
    requires !(|a| == 1 && |b| == 1)
    ensures HasUndefinedBehaviour(a, b) <==> !Resolve(a, b).Rejected?
  {
    UndefinedShapeRead(a, b);
    if Resolve(a, b).Resolved? {
      var out := Resolve(a, b).shape;
      ResolvedRank(a, b);
      PlanDefinedIffNoVector(a, b, out);
    }
  }

  /** An empty stack still runs one product: for (0, 3, 4) x (0, 4, 5) the
      shape resolves to (0, 3, 5), the naive kernel is chosen, and it would
      read element 0 of an empty operand buffer. */
  lemma EmptyStackIsUndefined()
    ensures Resolve([0, 3, 4], [0, 4, 5]) == Resolved([0, 3, 5])
    ensures DerivePlan([0, 3, 4], [0, 4, 5], [0, 3, 5]) == Planned(Plan(3, 5, 4, 4, 5, 5))
    ensures SelectKernel(Plan(3, 5, 4, 4, 5, 5)) == Naive
    ensures HasUndefinedBehaviour([0, 3, 4], [0, 4, 5])
  {
    var a, b, out: Shape := [0, 3, 4], [0, 4, 5], [0, 3, 5];
    var p := Plan(3, 5, 4, 4, 5, 5);
    assert Resolve(a, b) == Resolved(out) by {
      assert BatchAxesAgree(a, b);
      assert LeadingAxes(a, b) == [0];
    }
    assert DerivePlan(a, b, out) == Planned(p);
    assert !Covers(Volume(a), p.m, p.k, p.lda) by {
      assert Volume(a) == 0;
      assert Cell(0, 0, 4) == 0;
    }
  }

  /** For two matrices the naive kernel with the derived strides computes
      the textbook matrix product of the row-major operands. */
  lemma NaivePlanIsMatrixProduct(a: Shape, b: Shape, x: seq<seq<int>>, y: seq<seq<int>>, i: nat, j: nat)
    requires |a| == 2 && |b| == 2 && Resolve(a, b).Resolved?
    requires IsMatrix(x, a[0], a[1]) && IsMatrix(y, b[0], b[1])
    requires i < a[0] && j < b[1]
    ensures DerivePlan(a, b, Resolve(a, b).shape).Planned?
    ensures var p := DerivePlan(a, b, Resolve(a, b).shape).plan;
      && EntryInBounds(|Flatten(x)|, p.lda, |Flatten(y)|, p.ldb, i, j, p.k)
      && Entry(Flatten(x), p.lda, Flatten(y), p.ldb, i, j, p.k) == ProductEntry(x, y, i, j, p.k)
  {
    StackedPlan(a, b, Resolve(a, b).shape);
    EntryIsProduct(x, y, a[0], a[1], b[1], i, j, a[1]);
  }

  /** A worked dot product: (1, 2, 3) · (4, 5, 6) == 32. */
  lemma DotExample()
    ensures Dot([1, 2, 3], [4, 5, 6], 3) == 32
  {
  }

  /** A worked naive product: a 2 x 3 matrix of ones times a 3 x 4 matrix of
      ones, with the plan derived from shapes (2, 3) and (3, 4), has 3 in
      every entry. */
  lemma OnesProductExample(x: seq<seq<int>>, y: seq<seq<int>>, i: nat, j: nat)
    requires IsMatrix(x, 2, 3) && forall r, s :: 0 <= r < 2 && 0 <= s < 3 ==> x[r][s] == 1
    requires IsMatrix(y, 3, 4) && forall r, s :: 0 <= r < 3 && 0 <= s < 4 ==> y[r][s] == 1
    requires i < 2 && j < 4
    ensures Resolve([2, 3], [3, 4]) == Resolved([2, 4])
    ensures DerivePlan([2, 3], [3, 4], [2, 4]) == Planned(Plan(2, 4, 3, 3, 4, 4))
    ensures EntryInBounds(|Flatten(x)|, 3, |Flatten(y)|, 4, i, j, 3)
    ensures Entry(Flatten(x), 3, Flatten(y), 4, i, j, 3) == 3
  {
    var a, b: Shape := [2, 3], [3, 4];
    assert Resolve(a, b) == Resolved([2, 4]) by {
      assert LeadingAxes(a, b) == [];
    }
    assert DerivePlan(a, b, [2, 4]) == Planned(Plan(2, 4, 3, 3, 4, 4));
    OnesEntry(x, y, i, j, 3);
    NaivePlanIsMatrixProduct(a, b, x, y, i, j);
  }
}

=== FILE: plan.dfy ===
/** How `matmul_core` turns the operand and output shapes into one
    two-dimensional product (M x K times K x N with leading dimensions lda,
    ldb, ldc) and chooses the kernel that runs it. */
module MatmulPlan {
  import opened MatmulShapes

  /** Operands whose M, N and K are all at most this size run on the naive
      kernel; larger ones go to BLAS. */
  const TINY: nat := 32

  /** The parameters of the single two-dimensional product `matmul_core` runs. */
  datatype Plan = Plan(m: nat, n: nat, k: nat, lda: nat, ldb: nat, ldc: nat)

  /** A plan, or a read outside one of the shape arrays (undefined behaviour
      in the source). */
  datatype Planning = Planned(plan: Plan) | PlanReadOutOfRange

  datatype Kernel = Naive | Blas

  /** The plan derivation: M and N are the output's trailing two axes, K
      the last axis of `a`; a rank-2 operand's leading dimension is K (for
      `a`) or N (for `b`), any other operand's is its axis 2. */
  function DerivePlan(a: Shape, b: Shape, out: Shape): (r: Planning)
    ensures r.Planned? <==> |out| >= 2 && |a| >= 2 && |b| >= 2
    ensures r.Planned? ==> r.plan.m == out[|out| - 2] && r.plan.n == out[|out| - 1] == r.plan.ldc
    ensures r.Planned? ==> r.plan.k == a[|a| - 1]
  {
    if |out| < 2 || |a| < 1 then PlanReadOutOfRange
    else
      var m := out[|out| - 2];
      var n := out[|out| - 1];
      var k := if |a| > 1 then a[|a| - 1] else a[0];
      if |a| != 2 && |a| < 3 then PlanReadOutOfRange
      else if |b| != 2 && |b| < 3 then PlanReadOutOfRange
      else Planned(Plan(m, n, k,
                        if |a| == 2 then k else a[2],
                        if |b| == 2 then n else b[2],
                        n))
  }

  /** The size rule: the naive kernel is chosen exactly when the largest of
      M, N, K is at most TINY, BLAS otherwise. */
  function SelectKernel(p: Plan): (r: Kernel)
    ensures r == Naive <==> Max3(p.m, p.n, p.k) <= TINY
  {
    if p.m <= TINY && p.n <= TINY && p.k <= TINY then Naive else Blas
  }

  /** The largest of three sizes. */
  function Max3(x: nat, y: nat, z: nat): (r: nat)
    ensures r >= x && r >= y && r >= z
    ensures r == x || r == y || r == z
  {
    if x >= y && x >= z then x else if y >= z then y else z
  }

  /** The argument check a row-major, untransposed `sgemm` call makes before
      it touches any element: every leading dimension is at least 1 and at
      least the row width it strides over (lda >= K, ldb >= N, ldc >= N).
      A call that fails it is rejected and leaves every buffer alone. */
  predicate BlasAcceptsArguments(p: Plan)
  {
    && p.lda >= 1 && p.lda >= p.k
    && p.ldb >= 1 && p.ldb >= p.n
    && p.ldc >= 1 && p.ldc >= p.n
  }

  /** The kernel that runs reads the operands and writes the output: the
      naive kernel always does, BLAS only when it accepts the arguments. */
  predicate TouchesBuffers(p: Plan)
  {
    SelectKernel(p) == Naive || BlasAcceptsArguments(p)
  }

  /** Shrinking a problem never moves it from the naive kernel to BLAS. */
  lemma SelectKernelMonotone(p: Plan, q: Plan)
    requires q.m <= p.m && q.n <= p.n && q.k <= p.k
    ensures SelectKernel(p) == Naive ==> SelectKernel(q) == Naive
    ensures SelectKernel(q) == Blas ==> SelectKernel(p) == Blas
  {
  }

  /** The threshold boundary: 32 x 32 x 32 is naive, and one dimension of 33
      sends the product to BLAS. */
  lemma SelectKernelBoundary(lda: nat, ldb: nat, ldc: nat)
    ensures SelectKernel(Plan(32, 32, 32, lda, ldb, ldc)) == Naive
    ensures SelectKernel(Plan(33, 32, 32, lda, ldb, ldc)) == Blas
    ensures SelectKernel(Plan(32, 33, 32, lda, ldb, ldc)) == Blas
    ensures SelectKernel(Plan(32, 32, 33, lda, ldb, ldc)) == Blas
  {
  }

  /** For two operands of rank 2 or 3 that resolved, the plan is defined, its
      M, N are the output's trailing axes, K is the contracted dimension as
      both operands see it, and the asymmetric leading-dimension rule gives
      the tight strides lda == K, ldb == N, ldc == N. */
  lemma StackedPlan(a: Shape, b: Shape, out: Shape)
    requires 2 <= |a| <= 3 && 2 <= |b| <= 3
    requires Resolve(a, b) == Resolved(out)
    ensures DerivePlan(a, b, out).Planned?
    ensures var p := DerivePlan(a, b, out).plan;
      && |out| >= 2
      && p.m == out[|out| - 2] == a[|a| - 2]
      && p.n == out[|out| - 1] == b[|b| - 1]
      && p.k == a[|a| - 1] == b[|b| - 2]
      && p.lda == p.k && p.ldb == p.n && p.ldc == p.n
  {
    StackedResult(a, b);
  }

  /** For resolved operands of rank 2 or 3 the derived leading dimensions
      are the tight ones, so BLAS accepts the plan exactly when K and N are
      both positive. */
  lemma StackedBlasArguments(a: Shape, b: Shape, out: Shape)
    requires 2 <= |a| <= 3 && 2 <= |b| <= 3
    requires Resolve(a, b) == Resolved(out)
    ensures DerivePlan(a, b, out).Planned?
    ensures var p := DerivePlan(a, b, out).plan;
      BlasAcceptsArguments(p) <==> p.k > 0 && p.n > 0
  {
    StackedPlan(a, b, out);
  }

  /** Once the output has rank at least 1, the plan is defined exactly when
      neither operand is a vector: vector-matrix and matrix-vector reach the
      plan with a rank-1 output (read at index -1), and a vector `b` has no
      axis 2 to read. */
  lemma PlanDefinedIffNoVector(a: Shape, b: Shape, out: Shape)
    requires Resolve(a, b) == Resolved(out) && out != []
    ensures DerivePlan(a, b, out).Planned? <==> |a| >= 2 && |b| >= 2
  {
    ResolvedRank(a, b);
    if |a| >= 2 && |b| >= 2 {
      StackedPlan(a, b, out);
    }
  }
}

=== FILE: shapes.dfy ===
/** Output-shape resolution of `matmul` for operands of rank 1 to 3.

    A shape is the list of a tensor's dimensions, outermost first; its length
    is the tensor's rank.  The resolver either produces the output shape or
    raises one of three `ValueError`s.  One rank pair (a vector times a rank-3
    tensor) makes the source read the shape array at index -1; that outcome is
    kept distinct rather than given a meaning. */
module MatmulShapes {

  /** Dimensions of a tensor, outermost first. */
  type Shape = seq<nat>

  /** The errors the resolver raises. */
  datatype MatmulError = RankOutOfRange | SizeMismatch | BatchSizeMismatch

  /** The text of the `ValueError` raised for each error. */
  function Message(e: MatmulError): string
  {
    match e
    case RankOutOfRange => "1D to 3D arrays only"
    case SizeMismatch => "size mismatch"
    case BatchSizeMismatch => "batch size mismatch"
  }

  /** Each error has its own text, so a caller can tell them apart by the
      message alone. */
  lemma MessagesDistinct(e1: MatmulError, e2: MatmulError)
    ensures Message(e1) == Message(e2) <==> e1 == e2
  {
  }

  /** What resolving two shapes yields: an output shape, an error, or a read
      outside an operand's shape array (undefined behaviour in the source). */
  datatype Resolution =
    | Resolved(shape: Shape)
    | Rejected(error: MatmulError)
    | ShapeReadOutOfRange

  /** Number of elements of a tensor of the given shape. */
  function Volume(s: Shape): nat
  {
    if s == [] then 1 else s[0] * Volume(s[1..])
  }

  predicate RanksSupported(a: Shape, b: Shape)
  {
    1 <= |a| <= 3 && 1 <= |b| <= 3
  }

  /** The rank pairs handled by the three vector branches; every other
      supported pair falls into the general ("stacked") branch. */
  predicate IsVectorCase(a: Shape, b: Shape)
  {
    (|a| == 1 && |b| == 1) || (|a| == 1 && |b| == 2) || (|a| == 2 && |b| == 1)
  }

  predicate IsStackedCase(a: Shape, b: Shape)
  {
    RanksSupported(a, b) && !IsVectorCase(a, b)
  }

  /** The axis of `b` that is contracted with the last axis of `a`. */
  function InnerOfB(b: Shape): nat
    requires |b| >= 1
  {
    if |b| == 1 then b[0] else b[|b| - 2]
  }

  /** Equal-rank operands agree on every axis before their trailing two. */
  predicate BatchAxesAgree(a: Shape, b: Shape)
    requires |a| == |b|
  {
    forall i :: 0 <= i < |a| - 2 ==> a[i] == b[i]
  }

  /** Leading (batch) axes of the output: those of the operand of higher
      rank, and those of `a` when the ranks are equal. */
  function LeadingAxes(a: Shape, b: Shape): Shape
    requires |a| >= 2 && |b| >= 1
  {
    if |a| >= |b| then a[..|a| - 2] else b[..|b| - 2]
  }

  /** Trailing axis of the output: 1 when `b` is a vector. */
  function LastAxis(b: Shape): nat
    requires |b| >= 1
  {
    if |b| == 1 then 1 else b[|b| - 1]
  }

  /** The shape rules of `matmul`, one rank pair at a time. */
  function Resolve(a: Shape, b: Shape): (r: Resolution)
    ensures !r.Rejected? || r.error == RankOutOfRange || RanksSupported(a, b)
    ensures r.Resolved? ==> RanksSupported(a, b) && |r.shape| <= 3
    ensures r.Resolved? && |r.shape| >= 2 ==> |r.shape| == (if |a| >= |b| then |a| else |b|)
  {
    if !RanksSupported(a, b) then Rejected(RankOutOfRange)
    else if |a| == 1 && |b| == 1 then
      if a[0] != b[0] then Rejected(SizeMismatch) else Resolved([])
    else if |a| == 1 && |b| == 2 then
      if a[0] != b[0] then Rejected(SizeMismatch) else Resolved([b[1]])
    else if |a| == 2 && |b| == 1 then
      if a[1] != b[0] then Rejected(SizeMismatch) else Resolved([a[0]])
    else if a[|a| - 1] != InnerOfB(b) then Rejected(SizeMismatch)
    else if |a| == |b| && !BatchAxesAgree(a, b) then Rejected(BatchSizeMismatch)
    else if |a| < 2 then ShapeReadOutOfRange
    else Resolved(LeadingAxes(a, b) + [a[|a| - 2], LastAxis(b)])
  }

  /** The resolver as the source runs it: rank checks, the three vector
      branches, then the general branch, which fills a three-slot output
      shape array axis by axis. */
  method ResolveShape(aShape: Shape, bShape: Shape) returns (r: Resolution)
    ensures r == Resolve(aShape, bShape)
  {
    var ndimA, ndimB := |aShape|, |bShape|;
    if ndimA < 1 || ndimB < 1 || ndimA > 3 || ndimB > 3 {
      return Rejected(RankOutOfRange);
    }
    var outShape := new nat[3];
    var outNdim := 0;
    if ndimA == 1 && ndimB == 1 {
      if aShape[0] != bShape[0] {
        return Rejected(SizeMismatch);
      }
      outNdim := 0;
    } else if ndimA == 1 && ndimB == 2 {
      if aShape[0] != bShape[0] {
        return Rejected(SizeMismatch);
      }
      outNdim := 1;
      outShape[0] := bShape[1];
    } else if ndimA == 2 && ndimB == 1 {
      if aShape[1] != bShape[0] {
        return Rejected(SizeMismatch);
      }
      outNdim := 1;
      outShape[0] := aShape[0];
    } else {
      var innerA := aShape[ndimA - 1];
      var innerB := if ndimB == 1 then bShape[0] else bShape[ndimB - 2];
      if innerA != innerB {
        return Rejected(SizeMismatch);
      }
      outNdim := if ndimA > ndimB then ndimA else ndimB;
      if ndimA == ndimB {
        var i := 0;
        while i < ndimA - 2
          invariant 0 <= i <= ndimA - 2
          invariant forall j :: 0 <= j < i ==> aShape[j] == bShape[j] && outShape[j] == aShape[j]
        {
          if aShape[i] != bShape[i] {
            return Rejected(BatchSizeMismatch);
          }
          outShape[i] := aShape[i];
          i := i + 1;
        }
      } else if ndimA > ndimB {
        var i := 0;
        while i < ndimA - 2
          invariant 0 <= i <= ndimA - 2
          invariant forall j :: 0 <= j < i ==> outShape[j] == aShape[j]
        {
          outShape[i] := aShape[i];
          i := i + 1;
        }
      } else {
        var i := 0;
        while i < ndimB - 2
          invariant 0 <= i <= ndimB - 2
          invariant forall j :: 0 <= j < i ==> outShape[j] == bShape[j]
        {
          outShape[i] := bShape[i];
          i := i + 1;
        }
      }
      if ndimA < 2 {
        // the source reads aShape[ndimA - 2], that is aShape[-1]
        return ShapeReadOutOfRange;
      }
      outShape[outNdim - 2] := aShape[ndimA - 2];
      outShape[outNdim - 1] := if ndimB == 1 then 1 else bShape[ndimB - 1];
      assert outShape[..outNdim] == LeadingAxes(aShape, bShape) + [aShape[ndimA - 2], LastAxis(bShape)];
    }
    return Resolved(outShape[..outNdim]);
  }

  /** Ranks outside 1..3 are rejected before any shape is inspected, and
      that error is raised for no other input. */
  lemma RankGuard(a: Shape, b: Shape)
    ensures Resolve(a, b) == Rejected(RankOutOfRange) <==> !RanksSupported(a, b)
  {
  }

  /** Vector times vector: a scalar (rank 0) exactly when the lengths agree. */
  lemma VectorDotCase(a: Shape, b: Shape)
    requires |a| == 1 && |b| == 1
    ensures Resolve(a, b).Resolved? <==> a[0] == b[0]
    ensures Resolve(a, b).Resolved? ==> Resolve(a, b).shape == []
    ensures !Resolve(a, b).Resolved? ==> Resolve(a, b) == Rejected(SizeMismatch)
  {
  }

  /** Vector times matrix: shape `(b[1])` exactly when `a[0] == b[0]`. */
  lemma VectorMatrixCase(a: Shape, b: Shape)
    requires |a| == 1 && |b| == 2
    ensures Resolve(a, b).Resolved? <==> a[0] == b[0]
    ensures Resolve(a, b).Resolved? ==> Resolve(a, b).shape == [b[1]]
    ensures !Resolve(a, b).Resolved? ==> Resolve(a, b) == Rejected(SizeMismatch)
  {
  }

  /** Matrix times vector: shape `(a[0])` exactly when `a[1] == b[0]`. */
  lemma MatrixVectorCase(a: Shape, b: Shape)
    requires |a| == 2 && |b| == 1
    ensures Resolve(a, b).Resolved? <==> a[1] == b[0]
    ensures Resolve(a, b).Resolved? ==> Resolve(a, b).shape == [a[0]]
    ensures !Resolve(a, b).Resolved? ==> Resolve(a, b) == Rejected(SizeMismatch)
  {
  }

  /** In the general branch the inner dimension is checked first: a mismatch
      there is reported as such whatever the batch axes hold. */
  lemma StackedInnerCheck(a: Shape, b: Shape)
    requires IsStackedCase(a, b)
    ensures Resolve(a, b) == Rejected(SizeMismatch) <==> a[|a| - 1] != InnerOfB(b)
  {
  }

  /** Equal ranks in the general branch: with matching inner dimensions, the
      call fails with "batch size mismatch" exactly when some leading axis
      differs. */
  lemma StackedBatchCheck(a: Shape, b: Shape)
    requires IsStackedCase(a, b) && |a| == |b|
    requires a[|a| - 1] == InnerOfB(b)
    ensures Resolve(a, b) == Rejected(BatchSizeMismatch) <==>
              exists i :: 0 <= i < |a| - 2 && a[i] != b[i]
  {
  }

  /** "batch size mismatch" is raised only for equal ranks: an operand of
      lower rank never contributes batch axes. */
  lemma BatchErrorNeedsEqualRanks(a: Shape, b: Shape)
    requires Resolve(a, b) == Rejected(BatchSizeMismatch)
    ensures |a| == |b| == 3 && a[0] != b[0]
  {
  }

  /** The only undefined shape read is the vector-times-rank-3 pair whose
      inner dimensions agree: its general branch reads `a[-1]`. */
  lemma UndefinedShapeRead(a: Shape, b: Shape)
    ensures Resolve(a, b) == ShapeReadOutOfRange <==> |a| == 1 && |b| == 3 && a[0] == b[1]
  {
  }

  /** A successful general-branch resolution: the output has the larger
      rank, its leading axes come from the operand of higher rank (from
      both when the ranks agree), and its trailing axes are `a`'s rows and
      `b`'s columns (1 for a vector `b`). */
  lemma StackedResult(a: Shape, b: Shape)
    requires IsStackedCase(a, b) && Resolve(a, b).Resolved?
    ensures var s := Resolve(a, b).shape;
      && |a| >= 2
      && |s| == (if |a| >= |b| then |a| else |b|)
      && (forall i :: 0 <= i < |s| - 2 ==> s[i] == (if |a| >= |b| then a[i] else b[i]))
      && (|a| == |b| ==> forall i :: 0 <= i < |s| - 2 ==> s[i] == b[i])
      && s[|s| - 2] == a[|a| - 2]
      && s[|s| - 1] == (if |b| == 1 then 1 else b[|b| - 1])
  {
  }

  /** Every successful resolution has rank at most 3, and rank 0 exactly for
      two vectors. */
  lemma ResolvedRank(a: Shape, b: Shape)
    requires Resolve(a, b).Resolved?
    ensures |Resolve(a, b).shape| <= 3
    ensures |Resolve(a, b).shape| == 0 <==> |a| == 1 && |b| == 1
  {
  }

  /** Worked examples of the vector cases and of the rank guard. */
  lemma ResolveVectorExamples()
    ensures Resolve([3], [3]) == Resolved([])
    ensures Resolve([3], [3, 4]) == Resolved([4])
    ensures Resolve([3], [5, 4]) == Rejected(SizeMismatch)
    ensures Resolve([1, 2, 3, 4], [4, 5]) == Rejected(RankOutOfRange)
  {
  }

  /** Worked examples of the general branch. */
  lemma ResolveStackedExamples()
    ensures Resolve([2, 3], [3, 4]) == Resolved([2, 4])
    ensures Resolve([2, 3, 4], [2, 4, 5]) == Resolved([2, 3, 5])
    ensures Resolve([3, 4], [2, 4, 5]) == Resolved([2, 3, 5])
    ensures Resolve([2, 3, 4], [3, 4, 5]) == Rejected(BatchSizeMismatch)
    ensures Resolve([2, 3, 4], [4]) == Resolved([2, 3, 1])
  {
    assert LeadingAxes([2, 3], [3, 4]) == [];
    assert BatchAxesAgree([2, 3, 4], [2, 4, 5]) && LeadingAxes([2, 3, 4], [2, 4, 5]) == [2];
    assert LeadingAxes([3, 4], [2, 4, 5]) == [2];
    var x: Shape, y: Shape := [2, 3, 4], [3, 4, 5];
    assert x[0] != y[0];
    assert !BatchAxesAgree(x, y);
    assert LeadingAxes([2, 3, 4], [4]) == [2];
  }
}
